=== FILE: README.md ===
# moodcast in Dafny

moodcast is a single-page weather app that shows one "vibe word" for the current
weather and paints the page to match. This project models its decision logic.

- **The vibe-word classifier of `js/vibe-utils.js`.** It covers the word table,
  the temperature categories, the condition mapping, and the whole precedence
  cascade of `getVibeWord`: wind, then the description, then the exact key, the
  bare condition key and the partial match. Each random pick is modelled as an
  arbitrary choice among the candidates.
- **The pure parts of `js/app.js`.**
  - How `applyWeatherAnimations` classifies a reading: day or night, the
    secondary-colour temperature, the background band, the temperature overlay,
    the condition layer, the humidity and wind marks, the particle batches and
    the text shadow.
  - The contrast colour `getInverseColor`, with hexadecimal parsing and
    formatting.
  - The day/night override of `toggleDayNightMode`.
  - The state the controller carries between renders.

Modules follow the source:

- `Vibe` and `VibeProperties` model `js/vibe-utils.js`.
- `Color`, `Presentation` and `Session` model `js/app.js`.
- `Strings` holds `startsWith` and `includes`.
- `Weather` holds the weather record.
- `Options` holds an option type.

Observations the proofs establish about the code as written:

- **Frost and snow flakes add up.** Below 32°F with condition Snow, the page
  carries 65 snowflakes. The 15 slow frost flakes come first and the 50 snow
  flakes are appended after them; the snow batch does not replace the frost
  batch (`Presentation.ApplyWeatherAnimations`).
- **The contrast rule is not reversible.** `getInverseColor` applied twice
  always yields `#ffffff` (`Color.InverseColorTwiceIsWhite`). The brightness of
  a colour and of its channel-wise inverse sum to 255, so at most one of the two
  reaches 128.
- **Two table entries are dead.** "Cloudy All Day" and "Sudden Rain or Cold" can
  never be chosen (`VibeProperties.DeadEntries`). No condition maps to those
  names, and neither begins with `"<category> &"`.
- **The partial-match tier never runs out.** Every temperature category has
  partial matches, so the default word "Ambient" is never returned
  (`Vibe.SelectVibeNeverDefault`).
- **A Snow text shadow persists.** The strong text shadow written for Snow stays
  through later renders of clouds, rain, drizzle, fog, mist or haze. Only the
  default branch of the condition switch resets it
  (`Session.SnowShadowPersists`).
- **Frost overlays pile up.** A render below 32°F appends a frost overlay
  element to the effects layer. A render only resets the layers' classes and
  empties the particle containers, so the overlay outlives later warm renders,
  and each cold render or day/night toggle at a cold reading adds one more
  (`Session.FrostNeverCleared`, `Session.FrostOutlivesWarmRender`).
- **Warm has no windy entry.** Every temperature category except Warm has a
  `"<category> & Windy"` entry (`VibeProperties.WindyKeyPresence`). Windy Warm
  readings therefore fall through to the later wind checks and then to the calm
  cascade (`VibeProperties.WarmWindyFallThrough`).

## Model

| member | source | states |
|---|---|---|
| Strings.StartsWith | js/vibe-utils.js:207 | true exactly when the prefix occurs at position 0 of the key |
| Strings.Includes | js/vibe-utils.js:164-166 | true exactly when the word occurs at some position of the description |
| Color.ToBase16 | js/app.js:661-663 | `toString(16)` of a number: at least one lower-case hex digit, exactly one digit below 16 |
| Color.PadStart | js/app.js:661-663 | `padStart` leaves a long enough string unchanged and otherwise prefixes exactly the missing pad characters |
| Color.PaddedBase16IsByteToHex | js/app.js:661-663 | the source's `toString(16).padStart(2, '0')` of a channel is its two-digit hex form |
| Color.FormatHex | js/app.js:660-663 | the output is `#` followed by six lower-case hex digits, two per channel in r, g, b order |
| Color.ParseFormatRoundTrip | js/app.js:644-646 | parsing a formatted colour gives back the colour |
| Color.FormatParseRoundTrip | js/app.js:644-646 | formatting a parsed lower-case colour string gives back the string |
| Color.ParseHexColor | js/app.js:641-647 | each channel is the base-16 value of its two digits; `ParseFormatRoundTrip` and `FormatParseRoundTrip` pin it as the inverse of formatting |
| Color.Invert | js/app.js:649-652 | each channel of the result and of the input sum to 255 |
| Color.InvertInvolution | js/app.js:649-651 | inverting the channels twice gives back the colour |
| Color.Luma1000 | js/app.js:654 | brightness times 1000 lies in 0..255000 |
| Color.LumaOfInverse | js/app.js:649-654 | the brightnesses of a colour and of its inverse sum to 255 |
| Color.InverseColor | js/app.js:639-664 | the result is a lower-case colour string: white when the inverted colour's brightness is below 128, otherwise exactly the inverted colour; so its brightness is always at least 128 |
| Color.InverseColorTwiceIsWhite | js/app.js:639-664 | applying the contrast rule to its own output always gives `#ffffff` |
| Vibe.VibeWordMap | js/vibe-utils.js:7-52 | the 33 entries as written; read by `WindyKeyPresence`, `NoThunderstormExactKey`, `TempMatchesNonEmpty` and `ListsNonEmpty` |
| Vibe.TemperatureCategory | js/vibe-utils.js:59-71 | Hot from 85, Warm from 65, Mild from 45, Cool from 32, Cold below, each as an if-and-only-if |
| Vibe.ConditionMap | js/vibe-utils.js:81-97 | the condition table has exactly the fifteen service condition names as keys |
| Vibe.MapWeatherCondition | js/vibe-utils.js:79-101 | unknown names map to Sunny; Sunny exactly for Clear or unknown names; Snow is heavy at or below 20°F and light above; Mist, Fog and Haze give Fog & Calm; Rain and Drizzle give Rainy |
| Vibe.TempMatches | js/vibe-utils.js:207 | the partial-match keys are exactly the table keys starting with `"<category> &"` |
| Vibe.WindySelection | js/vibe-utils.js:125-161 | answers only when the wind exceeds 10 mph, only with a key the table has, and only with the category's windy key, Wind + Snow, Wind Only or Gusty |
| Vibe.IsWindy | js/vibe-utils.js:123 | no contract of its own: a record with wind over 10 mph; `VibeProperties.WindyMatchesWindHigh` ties it to the page's wind-high threshold, and `WindyTemperatureKeyFirst` and `WarmWindyFallThrough` state what follows when it holds |
| Vibe.DescriptionIncludes | js/vibe-utils.js:164-166 | true exactly when there is a record whose description contains the word at some position (the same test at lines 178-179) |
| Vibe.DescriptionSelection | js/vibe-utils.js:163-187 | answers only with a record; Rain + Fog exactly for rain or drizzle described as foggy or misty, Dense Fog exactly for fog, mist or haze described as dense |
| Vibe.TableSelection | js/vibe-utils.js:189-218 | answers with the exact or the bare condition key only when the table has it, otherwise with the non-empty set of partial matches |
| Vibe.SelectVibe | js/vibe-utils.js:110-219 | every key the cascade selects is in the table, and a set of keys is never empty; the order of its steps is pinned by `WindStepAnswersFirst`, `RainWithFog`, `DenseFogTier` and `TableTiersReached` |
| Vibe.TempMatchesNonEmpty | js/vibe-utils.js:7-52 | every temperature category has at least one `"<category> & ..."` key |
| Vibe.SelectVibeNeverDefault | js/vibe-utils.js:206-218 | the cascade never reaches the default word |
| Vibe.ListsNonEmpty | js/vibe-utils.js:7-52 | every word list has at least three words, so each random index is valid |
| Vibe.Draw | js/vibe-utils.js:208-214 | a random draw returns one of the selection's candidate words, taken from some list of the table |
| Vibe.GetVibeWord | js/vibe-utils.js:110-219 | the word is one of the cascade's candidates and always comes from the table |
| VibeProperties.TemperatureCategoryMonotone | js/vibe-utils.js:59-71 | a warmer reading never gets a colder category |
| VibeProperties.TemperatureCategoryBoundaries | js/vibe-utils.js:60-69 | 85, 65, 45 and 32 belong to the warmer side of each boundary |
| VibeProperties.OnlySnowReadsTemperature | js/vibe-utils.js:79-101 | for any condition but Snow the mapping does not depend on the temperature |
| VibeProperties.WindyKeyPresence | js/vibe-utils.js:7-52 | the `"<category> & Windy"` key exists exactly for the categories other than Warm |
| VibeProperties.WindyTemperatureKeyFirst | js/vibe-utils.js:126-134 | a windy reading outside Warm answers with its category's windy key, whatever the condition |
| VibeProperties.WindyMatchesWindHigh | js/vibe-utils.js:123 | a record counts as windy exactly when `applyWeatherAnimations` would mark it wind-high (js/app.js:450), so both use the same threshold above 10 mph |
| VibeProperties.WarmWindyFallThrough | js/vibe-utils.js:126-161 | a windy Warm reading gives Wind + Snow for snow, Wind Only for a sunny category, Gusty above 15 mph, and otherwise the same answer as with no wind |
| VibeProperties.RainWithFog | js/vibe-utils.js:163-173 | past the wind step, rain or drizzle described as foggy or misty answers Rain + Fog |
| VibeProperties.DenseFogTier | js/vibe-utils.js:175-187 | past the wind step, fog, mist or haze described as dense answers Dense Fog |
| VibeProperties.WindStepAnswersFirst | js/vibe-utils.js:126-161 | when the wind step answers, the cascade returns its answer |
| VibeProperties.TableTiersReached | js/vibe-utils.js:163-218 | past the wind step, when the description calls for neither Rain + Fog nor Dense Fog, the answer is the table tiers' answer, with or without a record |
| VibeProperties.NoRecordUsesTableOnly | js/vibe-utils.js:123-187 | without a record the wind and description steps never answer |
| VibeProperties.TableTierOrder | js/vibe-utils.js:189-215 | the exact key beats the bare condition key, which beats the partial matches |
| VibeProperties.NoThunderstormExactKey | js/vibe-utils.js:7-52 | no `"<category> & Thunderstorm"` key exists |
| VibeProperties.ThunderstormUsesBareKey | js/vibe-utils.js:189-204 | past the wind step, a thunderstorm always answers from the bare Thunderstorm key |
| VibeProperties.HotClearScenario | js/vibe-utils.js:189-196 | 90°F, clear, light wind: the Hot & Sunny key |
| VibeProperties.ColdWindySnowScenario | js/vibe-utils.js:126-134 | 10°F snow at 20 mph: Cold & Windy, ahead of Wind + Snow |
| VibeProperties.DenseFogScenario | js/vibe-utils.js:175-187 | 72°F fog described as dense: the Dense Fog key |
| VibeProperties.PrefixAmpersand | js/vibe-utils.js:207 | a key starting with `"<category> &"` has `&` right after the category's name |
| VibeProperties.CategoryKeysNotDead | js/vibe-utils.js:128-190 | keys built from a category are never "Cloudy All Day" or "Sudden Rain or Cold" |
| VibeProperties.DeadEntriesLackPrefix | js/vibe-utils.js:207 | neither "Cloudy All Day" nor "Sudden Rain or Cold" starts with any `"<category> &"` |
| VibeProperties.DeadEntries | js/vibe-utils.js:48-49 | the cascade never selects "Cloudy All Day" or "Sudden Rain or Cold" |
| Presentation.IsDaytime | js/app.js:343-351 | a forced setting wins; otherwise daytime exactly for hours 6 to 17 |
| Presentation.ToggleOverride | js/app.js:302-315 | after a press the override is set: day exactly when it was not already forced to day |
| Presentation.TogglesAlternate | js/app.js:302-315 | after n presses the override alternates day and night, starting with day unless day was already forced |
| Presentation.ToggledIgnoresClock | js/app.js:344-346 | after a press the clock hour no longer affects day or night |
| Presentation.AdjustForDayNight | js/app.js:463-470 | by day the colour is unchanged, by night it is the colour library's darkening of it |
| Presentation.SecondaryTemperature | js/app.js:369-370 | the secondary temperature is 15 degrees warmer, clamped to -40..120 |
| Presentation.BackgroundBand | js/app.js:382-390 | hot above 85, warm above 65, cool above 32, otherwise cold, each as an if-and-only-if |
| Presentation.TemperatureOverlay | js/app.js:393-410 | frost below 32, light wind for 40..59, sun glints for 75..85, heat shimmer from 100, none for 32..39, 60..74 and 86..99 |
| Presentation.ConditionEffectOf | js/app.js:420-443 | the branch of the condition switch: clouds, rain or drizzle, snow, fog or mist or haze, or the default |
| Presentation.ShadowWrite | js/app.js:428-442 | a strong shadow is written exactly for Snow, the default exactly for the default branch, and nothing for clouds, rain or the fog group |
| Presentation.WindFlag | js/app.js:450-454 | the high wind mark above 10 mph, the low one above 5 mph, none otherwise |
| Presentation.CreateSnowflakes | js/app.js:476-509 | appends exactly `count` flakes after the container's contents; every sixth is blurred and all are frost flakes exactly when `count` is below 20 |
| Presentation.CreateRaindrops | js/app.js:514-541 | appends exactly 70 drops after the container's contents, every eighth one blurred |
| Presentation.RenderAdditions | js/app.js:382-454 | no contract of its own: what one render adds, pinned by `RenderAdditionsBands`, `RenderAdditionsOverlays`, `RenderAdditionsReadings` and `RenderAdditionsExclusive` |
| Presentation.RenderAdditionsBands | js/app.js:382-390 | the page carries the hot, warm, cool or cold class exactly for its temperature range |
| Presentation.RenderAdditionsOverlays | js/app.js:393-410 | one render adds the frost overlay, the light-wind, sun-glint or heat-shimmer effect exactly for its temperature range (earlier frost overlays stay, see `Session.FrostAfter`) |
| Presentation.RenderAdditionsReadings | js/app.js:420-454 | clouds, fog, humid, wind-high and wind-low are each present exactly when their reading calls for them |
| Presentation.RenderAdditionsExclusive | js/app.js:382-454 | exactly one background band, at most one temperature overlay, and never both wind marks |
| Presentation.Precipitation | js/app.js:393-430 | 15 frost flakes below 32°F plus 50 more for Snow, the frost flakes exactly the first 15; 70 drops exactly for Rain and Drizzle |
| Presentation.ApplyWeatherAnimations | js/app.js:327-455 | the whole render: day or night, both gradient colours, what the render adds (its classes and, below 32°F, one frost overlay), the particle counts, the text-shadow write (strong exactly for Snow, none exactly for clouds, rain, drizzle and the fog group), and a text colour whose brightness is at least 128 |
| Session.ShadowAfter | js/app.js:428-442 | the shadow in force after a render: strong for Snow, unchanged for clouds, rain, drizzle and the fog group, the default otherwise |
| Session.FrostAfter | js/app.js:333-340 | a render never removes a frost overlay: the count grows by one exactly below 32°F and is otherwise unchanged |
| Session.ApplyWeather | js/app.js:327-340 | a render records the reading as current, keeps the override, leaves the shadow per the switch, and adds one frost overlay exactly below 32°F to those already on the page |
| Session.ToggleDayNightMode | js/app.js:302-321 | a press sets the override and keeps the current reading; with a reading it re-renders in the new mode, adding one more frost overlay at a cold reading, and without one it leaves the page as it was |
| Session.InitialIsAutomatic | js/app.js:23-24 | the page starts in automatic mode with no current reading and no frost overlay, so the clock decides and the first press gives day |
| Session.ShadowAfterIdempotent | js/app.js:316-320 | re-rendering the same reading does not change the text shadow |
| Session.SnowShadowPersists | js/app.js:428-442 | the strong Snow shadow survives a later clouds, rain, drizzle, fog, mist or haze render |
| Session.FrostNeverCleared | js/app.js:393-397 | over any run of renders the frost overlays never decrease, and increase when the run has a reading below 32°F |
| Session.FrostOutlivesWarmRender | js/app.js:393-410 | after a render below 32°F, a render at 100°F or more leaves a frost overlay on the page beside its heat shimmer |

## Left out

- The DOM, the CSS and every `style`/`classList` write are not modelled. Only
  the decisions behind them are: which classes and effects a render adds, how
  many frost overlays the page holds, how many particles there are, which text
  shadow and text colour are used.
- Per-particle randomness is not modelled: size, drift, position, duration and
  delay come from `Math.random()`. Only the deterministic attributes are kept:
  the blur of every sixth flake or eighth drop, and the frost flag that sets
  half opacity and the slower base duration.
- The chroma.js colour scale and its darkening are not modelled. They are a
  third-party library, so the model takes them as uninterpreted functions (a
  `Palette`). Its nine anchor colours are therefore not modelled either.
- The `getTemperatureColor` helper is not modelled. `applyWeatherAnimations`
  does not call it.
- The clock is not modelled: the current hour is a parameter of the day/night
  decision.
- `Math.random()` is modelled as an arbitrary choice (`:|`), so the order of
  `Object.keys` is irrelevant and not modelled. The partial-match tier yields
  the set of keys to pick from.
- `console.log` and the `window.VibeUtils` export are not modelled.
- Network access, geolocation, mock data, `generateRandomWeather`,
  `applyCustomTemperature` and the zip-code lookup are not modelled. They are
  I/O and test scaffolding around the core.
- The weather record's fields are always present. Missing or non-numeric fields
  are not modelled, and neither is JavaScript truthiness on them.
- Temperatures and humidity are integers; the wind speed is a real.
- A condition named after an `Object.prototype` property, such as
  `"constructor"`, is not modelled. The source's lookup would find an inherited
  value; the model treats the name as unknown.
- Color.InverseColor: requires a well-formed `#rrggbb` string. `getInverseColor`
  drops the first `#`, if any, and reads each two-character slice with
  `parseInt(_, 16)`. That call stops at the first non-hex character, so it
  gives NaN only when the slice starts with one. Other input shapes are not
  modelled, because `applyWeatherAnimations` only passes the colour library's
  `#rrggbb` output (js/app.js:413).
- Vibe.GetVibeWord: states which words are possible, not their probabilities.

=== FILE: color.dfy ===
/** Hexadecimal colour strings and the contrast colour used for the page text. */
module Color {

  type Byte = x: int | 0 <= x < 256

  datatype Rgb = Rgb(r: Byte, g: Byte, b: Byte)

  const White: Rgb := Rgb(255, 255, 255)

  /** Lower-case hexadecimal digit for a value below sixteen, as `Number.toString(16)` writes it. */
  function HexDigit(n: int): (c: char)
    requires 0 <= n < 16
    ensures IsLowerHexDigit(c)
  {
    "0123456789abcdef"[n]
  }

  predicate IsLowerHexDigit(c: char) {
    '0' <= c <= '9' || 'a' <= c <= 'f'
  }

  /** A digit `parseInt(_, 16)` accepts: either case. */
  predicate IsHexDigit(c: char) {
    '0' <= c <= '9' || 'a' <= c <= 'f' || 'A' <= c <= 'F'
  }

  function DigitValue(c: char): (v: int)
    requires IsHexDigit(c)
    ensures 0 <= v < 16
  {
    if '0' <= c <= '9' then c as int - '0' as int
    else if 'a' <= c <= 'f' then c as int - 'a' as int + 10
    else c as int - 'A' as int + 10
  }

  lemma DigitRoundTrip(n: int)
    requires 0 <= n < 16
    ensures DigitValue(HexDigit(n)) == n
  {
  }

  lemma LowerDigitRoundTrip(c: char)
    requires IsLowerHexDigit(c)
    ensures HexDigit(DigitValue(c)) == c
  {
  }

  /** `n.toString(16)`: base-16 digits of `n`, without leading zeros. */
  function ToBase16(n: nat): (s: string)
    ensures |s| >= 1
    ensures forall i :: 0 <= i < |s| ==> IsLowerHexDigit(s[i])
    ensures n < 16 <==> |s| == 1
  {
    if n < 16 then [HexDigit(n)] else ToBase16(n / 16) + [HexDigit(n % 16)]
  }

  /** `s.padStart(width, pad)`: `pad` repeated in front of `s` up to `width` characters. */
  function PadStart(s: string, width: nat, pad: char): (r: string)
    ensures |s| >= width ==> r == s
    ensures |s| < width ==> r == seq(width - |s|, _ => pad) + s
    decreases width - |s|
  {
    if |s| < width then
      var r := PadStart([pad] + s, width, pad);
      assert seq(width - |s| - 1, _ => pad) + ([pad] + s) == seq(width - |s|, _ => pad) + s;
      r
    else
      s
  }

  /** The two lower-case digits of `b`, high one first. */
  function ByteToHex(b: Byte): string {
    [HexDigit(b / 16), HexDigit(b % 16)]
  }

  /** What `getInverseColor` writes per channel, `b.toString(16).padStart(2, '0')`, is `ByteToHex(b)`. */
  lemma PaddedBase16IsByteToHex(b: Byte)
    ensures PadStart(ToBase16(b), 2, '0') == ByteToHex(b)
  {
    if b < 16 {
      assert ToBase16(b) == [HexDigit(b)];
    } else {
      assert ToBase16(b / 16) == [HexDigit(b / 16)];
      assert ToBase16(b) == [HexDigit(b / 16), HexDigit(b % 16)];
    }
  }

  /** `parseInt(s, 16)` on two hexadecimal digits. */
  function ParseByte(hi: char, lo: char): (b: Byte)
    requires IsHexDigit(hi) && IsHexDigit(lo)
  {
    DigitValue(hi) * 16 + DigitValue(lo)
  }

  /** `#rrggbb` in either case: the shape the colour library's `.hex()` produces. */
  predicate IsHexColor(s: string) {
    |s| == 7 && s[0] == '#' && forall i :: 1 <= i < 7 ==> IsHexDigit(s[i])
  }

  /** `#rrggbb` in lower case: the shape this module writes. */
  predicate IsLowerHexColor(s: string) {
    |s| == 7 && s[0] == '#' && forall i :: 1 <= i < 7 ==> IsLowerHexDigit(s[i])
  }

  /** `'#' + r.toString(16).padStart(2, '0') + ...` for the three channels. */
  function FormatHex(c: Rgb): (s: string)
    ensures s == ['#', HexDigit(c.r / 16), HexDigit(c.r % 16), HexDigit(c.g / 16), HexDigit(c.g % 16),
                  HexDigit(c.b / 16), HexDigit(c.b % 16)]
    ensures IsLowerHexColor(s)
  {
    var red, green, blue := ByteToHex(c.r), ByteToHex(c.g), ByteToHex(c.b);
    var s := "#" + red + green + blue;
    assert |s| == 7;
    assert s[1] == red[0] && s[2] == red[1];
    assert s[3] == green[0] && s[4] == green[1];
    assert s[5] == blue[0] && s[6] == blue[1];
    assert forall i | 1 <= i < 7 :: IsLowerHexDigit(s[i]) by {
      assert IsLowerHexDigit(s[1]) && IsLowerHexDigit(s[2]) && IsLowerHexDigit(s[3]);
      assert IsLowerHexDigit(s[4]) && IsLowerHexDigit(s[5]) && IsLowerHexDigit(s[6]);
    }
    s
  }

  /** Strips the `#` and reads the three channels two digits at a time. */
  function ParseHexColor(s: string): (c: Rgb)
    requires IsHexColor(s)
    ensures c.r == 16 * DigitValue(s[1]) + DigitValue(s[2])
    ensures c.g == 16 * DigitValue(s[3]) + DigitValue(s[4])
    ensures c.b == 16 * DigitValue(s[5]) + DigitValue(s[6])
  {
    var digits := s[1..];
    Rgb(ParseByte(digits[0], digits[1]), ParseByte(digits[2], digits[3]), ParseByte(digits[4], digits[5]))
  }

  lemma ByteDigitsRoundTrip(b: Byte)
    ensures ParseByte(HexDigit(b / 16), HexDigit(b % 16)) == b
  {
    DigitRoundTrip(b / 16);
    DigitRoundTrip(b % 16);
  }

  lemma ParseFormatRoundTrip(c: Rgb)
    ensures ParseHexColor(FormatHex(c)) == c
  {
    ByteDigitsRoundTrip(c.r);
    ByteDigitsRoundTrip(c.g);
    ByteDigitsRoundTrip(c.b);
  }

  lemma DigitsByteRoundTrip(hi: char, lo: char)
    requires IsLowerHexDigit(hi) && IsLowerHexDigit(lo)
    ensures var b := ParseByte(hi, lo); HexDigit(b / 16) == hi && HexDigit(b % 16) == lo
  {
    var b := ParseByte(hi, lo);
    assert b / 16 == DigitValue(hi) && b % 16 == DigitValue(lo);
    LowerDigitRoundTrip(hi);
    LowerDigitRoundTrip(lo);
  }

  lemma FormatParseRoundTrip(s: string)
    requires IsLowerHexColor(s)
    ensures FormatHex(ParseHexColor(s)) == s
  {
    assert IsLowerHexDigit(s[1]) && IsLowerHexDigit(s[2]);
    assert IsLowerHexDigit(s[3]) && IsLowerHexDigit(s[4]);
    assert IsLowerHexDigit(s[5]) && IsLowerHexDigit(s[6]);
    DigitsByteRoundTrip(s[1], s[2]);
    DigitsByteRoundTrip(s[3], s[4]);
    DigitsByteRoundTrip(s[5], s[6]);
  }

  /** Channel-wise `255 - c`. */
  function Invert(c: Rgb): (inv: Rgb)
    ensures c.r + inv.r == 255 && c.g + inv.g == 255 && c.b + inv.b == 255
  {
    Rgb(255 - c.r, 255 - c.g, 255 - c.b)
  }

  lemma InvertInvolution(c: Rgb)
    ensures Invert(Invert(c)) == c
  {
  }

  /** Perceived brightness times 1000, with the 0.299 / 0.587 / 0.114 weights. */
  function Luma1000(c: Rgb): (l: int)
    ensures 0 <= l <= 255000
  {
    299 * c.r + 587 * c.g + 114 * c.b
  }

  lemma LumaOfInverse(c: Rgb)
    ensures Luma1000(c) + Luma1000(Invert(c)) == 255000
  {
  }

  /** `getInverseColor`: the inverted colour, or white when the inverted colour's brightness
      `(299 r + 587 g + 114 b) / 1000` falls below 128. */
  function InverseColor(hex: string): (out: string)
    requires IsHexColor(hex)
    ensures IsLowerHexColor(out)
    ensures Luma1000(Invert(ParseHexColor(hex))) < 128000 ==> out == FormatHex(White)
    ensures Luma1000(Invert(ParseHexColor(hex))) >= 128000 ==> ParseHexColor(out) == Invert(ParseHexColor(hex))
    ensures Luma1000(ParseHexColor(out)) >= 128000
  {
    var inverted := Invert(ParseHexColor(hex));
    var brightness := (inverted.r * 299 + inverted.g * 587 + inverted.b * 114) as real / 1000.0;
    assert brightness < 128.0 <==> Luma1000(inverted) < 128000;
    if brightness < 128.0 then
      ParseFormatRoundTrip(White);
      "#ffffff"
    else
      ParseFormatRoundTrip(inverted);
      FormatHex(inverted)
  }

  /** Applying the contrast rule twice always lands on white: a colour and its inverse cannot
      both be bright, since their brightnesses sum to 255. */
  lemma InverseColorTwiceIsWhite(hex: string)
    requires IsHexColor(hex)
    ensures InverseColor(InverseColor(hex)) == FormatHex(White)
  {
    var c := ParseHexColor(hex);
    var once := InverseColor(hex);
    LumaOfInverse(c);
    LumaOfInverse(ParseHexColor(once));
    if Luma1000(Invert(c)) >= 128000 {
      assert ParseHexColor(once) == Invert(c);
      assert Luma1000(Invert(ParseHexColor(once))) == Luma1000(c) < 128000;
    } else {
      ParseFormatRoundTrip(White);
      assert Luma1000(Invert(ParseHexColor(once))) == 0;
    }
  }
}

=== FILE: options.dfy ===
/** The optional value that stands for JavaScript's `null` / `undefined`. */
module Options {

  datatype Option<+T> = None | Some(value: T)
}

=== FILE: presentation.dfy ===
/** The presentation mapper: the classification inside `applyWeatherAnimations`, with the
    document writes replaced by the visual state they would produce. */
module Presentation {
  import opened Options
  import opened Weather
  import opened Color

  /** Daytime from the user's override, or from the clock's hour when there is none
      (`null` = automatic, `true` = forced day, `false` = forced night). */
  function IsDaytime(forced: Option<bool>, hour: int): (day: bool)
    ensures forced.Some? ==> day == forced.value
    ensures forced.None? ==> (day <==> 6 <= hour < 18)
  {
    match forced
    case Some(d) => d
    case None => hour >= 6 && hour < 18
  }

  /** `toggleDayNightMode`'s state change: automatic or night becomes day, day becomes night. */
  function ToggleOverride(forced: Option<bool>): (next: Option<bool>)
    ensures next.Some?
    ensures next.value <==> forced != Some(true)
  {
    match forced
    case None => Some(true)
    case Some(false) => Some(true)
    case Some(true) => Some(false)
  }

  /** The override after `n` presses of the toggle. */
  function Toggles(forced: Option<bool>, n: nat): Option<bool> {
    if n == 0 then forced else ToggleOverride(Toggles(forced, n - 1))
  }

  /** Once pressed, the toggle never returns to automatic and alternates day and night,
      starting with day unless day was already forced. */
  lemma {:induction false} TogglesAlternate(forced: Option<bool>, n: nat)
    requires n >= 1
    ensures Toggles(forced, n) == Some(if forced == Some(true) then n % 2 == 0 else n % 2 == 1)
  {
    if n > 1 {
      TogglesAlternate(forced, n - 1);
    }
  }

  /** After a press, the clock no longer matters. */
  lemma ToggledIgnoresClock(forced: Option<bool>, hour1: int, hour2: int)
    ensures IsDaytime(ToggleOverride(forced), hour1) == IsDaytime(ToggleOverride(forced), hour2)
  {
  }

  function Min(a: int, b: int): int { if a < b then a else b }
  function Max(a: int, b: int): int { if a < b then b else a }

  /** The temperature the secondary gradient colour is taken at: 15 degrees warmer, kept
      inside the colour scale's domain -40..120. */
  function SecondaryTemperature(temperature: int): (t: int)
    ensures -40 <= t <= 120
    ensures -55 <= temperature <= 105 ==> t == temperature + 15
    ensures temperature < -55 ==> t == -40
    ensures temperature > 105 ==> t == 120
  {
    Min(120, Max(-40, temperature + 15))
  }

  /** What one render adds to the page: a background band, a temperature effect, a condition
      layer, and the humidity and wind marks. All are classes, which the next render clears,
      except `Frost`: the frost overlay is a child element appended to the effects layer, which
      no later render removes (the page-level count is kept by the `Session` module). */
  datatype Flag =
    | HotBand | WarmBand | CoolBand | ColdBand
    | Frost | LightWind | SunGlints | HeatShimmer
    | Clouds | Fog
    | Humid | WindHigh | WindLow
  {
    predicate IsBand() { HotBand? || WarmBand? || CoolBand? || ColdBand? }
    predicate IsOverlay() { Frost? || LightWind? || SunGlints? || HeatShimmer? }
  }

  /** The background band: above 85 hot, above 65 warm, above 32 cool, otherwise cold. */
  function BackgroundBand(temperature: int): (band: Flag)
    ensures band.IsBand()
    ensures band == HotBand <==> temperature > 85
    ensures band == WarmBand <==> 65 < temperature <= 85
    ensures band == CoolBand <==> 32 < temperature <= 65
    ensures band == ColdBand <==> temperature <= 32
  {
    if temperature > 85 then HotBand
    else if temperature > 65 then WarmBand
    else if temperature > 32 then CoolBand
    else ColdBand
  }

  /** The temperature overlay; the first matching test wins, and the ranges 32..39, 60..74
      and 86..99 get none. */
  function TemperatureOverlay(temperature: int): (overlay: Option<Flag>)
    ensures overlay.Some? ==> overlay.value.IsOverlay()
    ensures overlay == Some(Frost) <==> temperature < 32
    ensures overlay == Some(LightWind) <==> 40 <= temperature <= 59
    ensures overlay == Some(SunGlints) <==> 75 <= temperature <= 85
    ensures overlay == Some(HeatShimmer) <==> temperature >= 100
    ensures overlay == None <==>
              (32 <= temperature <= 39 || 60 <= temperature <= 74 || 86 <= temperature <= 99)
  {
    if temperature < 32 then Some(Frost)
    else if temperature >= 40 && temperature <= 59 then Some(LightWind)
    else if temperature >= 75 && temperature <= 85 then Some(SunGlints)
    else if temperature >= 100 then Some(HeatShimmer)
    else None
  }

  /** The branch of the condition switch taken. */
  datatype ConditionEffect = CloudLayer | Rainfall | Snowfall | FogLayer | Plain

  function ConditionEffectOf(condition: string): (effect: ConditionEffect)
    ensures effect == CloudLayer <==> condition == "Clouds"
    ensures effect == Rainfall <==> condition in {"Rain", "Drizzle"}
    ensures effect == Snowfall <==> condition == "Snow"
    ensures effect == FogLayer <==> condition in {"Fog", "Mist", "Haze"}
  {
    match condition
    case "Clouds" => CloudLayer
    case "Rain" => Rainfall
    case "Drizzle" => Rainfall
    case "Snow" => Snowfall
    case "Fog" => FogLayer
    case "Mist" => FogLayer
    case "Haze" => FogLayer
    case _ => Plain
  }

  /** The value written to `--text-shadow`; only the Snow and default branches write one. */
  datatype TextShadow = Strong | Weak

  function ShadowWrite(effect: ConditionEffect): (written: Option<TextShadow>)
    ensures written == Some(Strong) <==> effect == Snowfall
    ensures written == Some(Weak) <==> effect == Plain
    ensures written == None <==> effect in {CloudLayer, Rainfall, FogLayer}
  {
    match effect
    case Snowfall => Some(Strong)
    case Plain => Some(Weak)
    case _ => None
  }

  /** The wind mark: high above 10 mph, low above 5 mph, none otherwise. */
  function WindFlag(windSpeed: real): (flag: Option<Flag>)
    ensures flag == Some(WindHigh) <==> windSpeed > 10.0
    ensures flag == Some(WindLow) <==> 5.0 < windSpeed <= 10.0
    ensures flag == None <==> windSpeed <= 5.0
  {
    if windSpeed > 10.0 then Some(WindHigh)
    else if windSpeed > 5.0 then Some(WindLow)
    else None
  }

  /** The class an optional decision adds, if any. */
  function OptionSet(o: Option<Flag>): set<Flag> {
    match o
    case Some(x) => {x}
    case None => {}
  }

  /** Deterministic attributes of one snowflake. `blurred`: every sixth flake of a batch.
      `frost`: the flake belongs to a batch of fewer than 20, which `createSnowflakes` draws at half
      opacity with a 15 s base fall time instead of 8 s. */
  datatype Snowflake = Snowflake(blurred: bool, frost: bool)

  /** Deterministic attribute of one raindrop: every eighth drop is blurred. */
  datatype Raindrop = Raindrop(blurred: bool)

  /** The `i`-th flake (counting from 1) of a batch of `count`. */
  function SnowflakeAt(i: nat, count: nat): Snowflake {
    Snowflake(i % 6 == 0, count < 20)
  }

  /** The fixed number of drops `createRaindrops` adds. */
  const RaindropCount: nat := 70

  /** `createSnowflakes(count)`: appends `count` flakes to the container. */
  method CreateSnowflakes(container: seq<Snowflake>, count: nat) returns (result: seq<Snowflake>)
    ensures |result| == |container| + count
    ensures result[..|container|] == container
    ensures forall j :: |container| <= j < |result| ==> result[j] == SnowflakeAt(j - |container| + 1, count)
  {
    result := container;
    var i := 1;
    while i <= count
      invariant 1 <= i <= count + 1
      invariant |result| == |container| + i - 1
      invariant result[..|container|] == container
      invariant forall j :: |container| <= j < |result| ==> result[j] == SnowflakeAt(j - |container| + 1, count)
    {
      result := result + [SnowflakeAt(i, count)];
      i := i + 1;
    }
  }

  /** `createRaindrops()`: appends 70 drops, every eighth one blurred. */
  method CreateRaindrops(container: seq<Raindrop>) returns (result: seq<Raindrop>)
    ensures |result| == |container| + RaindropCount
    ensures result[..|container|] == container
    ensures forall j :: |container| <= j < |result| ==> result[j] == Raindrop((j - |container| + 1) % 8 == 0)
  {
    result := container;
    var i := 1;
    while i <= RaindropCount
      invariant 1 <= i <= RaindropCount + 1
      invariant |result| == |container| + i - 1
      invariant result[..|container|] == container
      invariant forall j :: |container| <= j < |result| ==> result[j] == Raindrop((j - |container| + 1) % 8 == 0)
    {
      result := result + [Raindrop(i % 8 == 0)];
      i := i + 1;
    }
  }

  /** The colour library `applyWeatherAnimations` delegates to: the temperature scale over its nine anchor
      points, and the night-time darkening. Both are left uninterpreted. */
  datatype Palette = Palette(scale: int -> Rgb, darken: Rgb -> Rgb)

  /** `adjustColorForDayNight`: unchanged by day, darkened by night. */
  function AdjustForDayNight(c: Rgb, isDaytime: bool, palette: Palette): (adjusted: Rgb)
    ensures isDaytime ==> adjusted == c
    ensures !isDaytime ==> adjusted == palette.darken(c)
  {
    if isDaytime then c else palette.darken(c)
  }

  /** What one call of `applyWeatherAnimations` writes or adds. `flags` are the additions of
      this call only (an earlier frost overlay stays on the page besides them). `textShadow` is
      None when the call does not write `--text-shadow`, leaving the previous value in place. */
  datatype VisualState = VisualState(
    isDaytime: bool,
    primary: Rgb,
    secondary: Rgb,
    flags: set<Flag>,
    snowflakes: seq<Snowflake>,
    raindrops: seq<Raindrop>,
    textShadow: Option<TextShadow>,
    textColor: string)

  /** The band and overlay classes, both decided by the temperature alone. */
  function TemperatureFlags(temperature: int): set<Flag> {
    {BackgroundBand(temperature)} + OptionSet(TemperatureOverlay(temperature))
  }

  /** The layer the condition switch adds to the foreground. */
  function ConditionLayer(effect: ConditionEffect): set<Flag> {
    match effect
    case CloudLayer => {Clouds}
    case FogLayer => {Fog}
    case _ => {}
  }

  /** The humidity and wind marks. */
  function AtmosphereFlags(humidity: int, windSpeed: real): set<Flag> {
    (if humidity > 80 then {Humid} else {}) + OptionSet(WindFlag(windSpeed))
  }

  /** Everything one call of `applyWeatherAnimations` adds: its classes and, below 32 degrees,
      one frost overlay. */
  function RenderAdditions(w: WeatherRecord): set<Flag> {
    TemperatureFlags(w.temperature)
    + ConditionLayer(ConditionEffectOf(w.condition))
    + AtmosphereFlags(w.humidity, w.windSpeed)
  }

  /** The background band present for each temperature. */
  lemma RenderAdditionsBands(w: WeatherRecord)
    ensures HotBand in RenderAdditions(w) <==> w.temperature > 85
    ensures WarmBand in RenderAdditions(w) <==> 65 < w.temperature <= 85
    ensures CoolBand in RenderAdditions(w) <==> 32 < w.temperature <= 65
    ensures ColdBand in RenderAdditions(w) <==> w.temperature <= 32
  {
    var band := BackgroundBand(w.temperature);
    assert band in RenderAdditions(w);
  }

  /** The temperature effect one render adds for each temperature. */
  lemma RenderAdditionsOverlays(w: WeatherRecord)
    ensures Frost in RenderAdditions(w) <==> w.temperature < 32
    ensures LightWind in RenderAdditions(w) <==> 40 <= w.temperature <= 59
    ensures SunGlints in RenderAdditions(w) <==> 75 <= w.temperature <= 85
    ensures HeatShimmer in RenderAdditions(w) <==> w.temperature >= 100
  {
  }

  /** The condition layer, humidity and wind marks, each decided by its own reading. */
  lemma RenderAdditionsReadings(w: WeatherRecord)
    ensures Clouds in RenderAdditions(w) <==> w.condition == "Clouds"
    ensures Fog in RenderAdditions(w) <==> w.condition in {"Fog", "Mist", "Haze"}
    ensures Humid in RenderAdditions(w) <==> w.humidity > 80
    ensures WindHigh in RenderAdditions(w) <==> w.windSpeed > 10.0
    ensures WindLow in RenderAdditions(w) <==> 5.0 < w.windSpeed <= 10.0
  {
  }

  /** Exactly one background band, at most one temperature overlay, never both wind marks. */
  lemma RenderAdditionsExclusive(w: WeatherRecord)
    ensures exists f :: f in RenderAdditions(w) && f.IsBand()
    ensures forall f, g | f in RenderAdditions(w) && g in RenderAdditions(w) && f.IsBand() && g.IsBand() :: f == g
    ensures forall f, g | f in RenderAdditions(w) && g in RenderAdditions(w) && f.IsOverlay() && g.IsOverlay() :: f == g
    ensures !(WindHigh in RenderAdditions(w) && WindLow in RenderAdditions(w))
  {
    RenderAdditionsBands(w);
    RenderAdditionsOverlays(w);
    RenderAdditionsReadings(w);
    assert BackgroundBand(w.temperature) in RenderAdditions(w);
  }

  /**
   * The particle part of `applyWeatherAnimations`: a frost batch of 15 flakes
   * below 32 degrees, then 70 drops for rain or drizzle, or 50 more flakes for
   * snow, appended after the frost batch.
   */
  method Precipitation(w: WeatherRecord) returns (snowflakes: seq<Snowflake>, raindrops: seq<Raindrop>)
    ensures |snowflakes| == (if w.temperature < 32 then 15 else 0) + (if w.condition == "Snow" then 50 else 0)
    ensures forall j :: 0 <= j < |snowflakes| ==> (snowflakes[j].frost <==> w.temperature < 32 && j < 15)
    ensures |raindrops| == if w.condition in {"Rain", "Drizzle"} then RaindropCount else 0
  {
    snowflakes := [];
    raindrops := [];
    if w.temperature < 32 {
      snowflakes := CreateSnowflakes(snowflakes, 15);
      assert forall j :: 0 <= j < |snowflakes| ==> snowflakes[j].frost;
    }
    ghost var frostBatch := snowflakes;
    assert forall j :: 0 <= j < |frostBatch| ==> (frostBatch[j].frost <==> w.temperature < 32 && j < 15);
    var effect := ConditionEffectOf(w.condition);
    if effect == Rainfall {
      raindrops := CreateRaindrops(raindrops);
    } else if effect == Snowfall {
      snowflakes := CreateSnowflakes(snowflakes, 50);
      assert forall j :: |frostBatch| <= j < |snowflakes| ==> !snowflakes[j].frost;
      assert forall j :: 0 <= j < |frostBatch| ==> snowflakes[j] == frostBatch[j];
    }
  }

  /** `applyWeatherAnimations` without its document writes. Both particle containers start
      empty; the frost batch and the snow batch then both append to the snow container. */
  method ApplyWeatherAnimations(w: WeatherRecord, forced: Option<bool>, hour: int, palette: Palette)
    returns (v: VisualState)
    ensures v.isDaytime == IsDaytime(forced, hour)
    ensures v.primary == AdjustForDayNight(palette.scale(w.temperature), v.isDaytime, palette)
    ensures v.secondary == AdjustForDayNight(palette.scale(SecondaryTemperature(w.temperature)), v.isDaytime, palette)
    ensures v.flags == RenderAdditions(w)
    ensures |v.snowflakes| == (if w.temperature < 32 then 15 else 0) + (if w.condition == "Snow" then 50 else 0)
    ensures forall j :: 0 <= j < |v.snowflakes| ==> (v.snowflakes[j].frost <==> w.temperature < 32 && j < 15)
    ensures |v.raindrops| == if w.condition in {"Rain", "Drizzle"} then RaindropCount else 0
    ensures v.textShadow == ShadowWrite(ConditionEffectOf(w.condition))
    ensures v.textShadow == Some(Strong) <==> w.condition == "Snow"
    ensures v.textShadow == None <==> w.condition in {"Clouds", "Rain", "Drizzle", "Fog", "Mist", "Haze"}
    ensures v.textColor == InverseColor(FormatHex(v.primary))
    ensures Luma1000(ParseHexColor(v.textColor)) >= 128000
  {
    var isDaytime := IsDaytime(forced, hour);
    var primary := AdjustForDayNight(palette.scale(w.temperature), isDaytime, palette);
    var secondary := AdjustForDayNight(palette.scale(SecondaryTemperature(w.temperature)), isDaytime, palette);

    var snowflakes, raindrops := Precipitation(w);
    var textColor := InverseColor(FormatHex(primary));
    var effect := ConditionEffectOf(w.condition);

    v := VisualState(isDaytime, primary, secondary, RenderAdditions(w), snowflakes, raindrops,
                     ShadowWrite(effect), textColor);
  }
}

=== FILE: session.dfy ===
/**
 * The controller state the page keeps between renders: the user's day/night
 * override, the last weather record drawn, the `--text-shadow` custom
 * property, which a render only writes for some conditions and otherwise
 * leaves as the previous render set it, and the frost overlays, which each
 * render below 32 degrees appends to the effects layer and none removes.
 */
module Session {
  import opened Options
  import opened Weather
  import opened Presentation

  datatype PageState = PageState(
    forced: Option<bool>,
    current: Option<WeatherRecord>,
    shadow: Option<TextShadow>,
    frostOverlays: nat,
    view: Option<VisualState>)

  /** The page before any weather has been drawn: automatic mode, nothing rendered. */
  const Initial := PageState(None, None, None, 0, None)

  /** The text shadow in force after a render: the one written, or the previous one when none is. */
  function ShadowAfter(previous: Option<TextShadow>, condition: string): (r: Option<TextShadow>)
    ensures condition == "Snow" ==> r == Some(Strong)
    ensures condition in {"Clouds", "Rain", "Drizzle", "Fog", "Mist", "Haze"} ==> r == previous
    ensures condition != "Snow" && condition !in {"Clouds", "Rain", "Drizzle", "Fog", "Mist", "Haze"} ==> r == Some(Weak)
  {
    match ShadowWrite(ConditionEffectOf(condition))
    case Some(written) => Some(written)
    case None => previous
  }

  /** The frost overlays on the page after a render: one more below 32 degrees, never fewer,
      since a render resets the layers' classes but not their children. */
  function FrostAfter(previous: nat, temperature: int): (n: nat)
    ensures n >= previous
    ensures n == previous + 1 <==> temperature < 32
    ensures n == previous <==> temperature >= 32
  {
    if Frost in TemperatureFlags(temperature) then previous + 1 else previous
  }

  /** The frost overlays after a run of renders at the given temperatures. */
  function FrostAfterAll(previous: nat, temperatures: seq<int>): nat
    decreases |temperatures|
  {
    if |temperatures| == 0 then previous
    else FrostAfterAll(FrostAfter(previous, temperatures[0]), temperatures[1..])
  }

  /** `applyWeatherAnimations(weatherData)` as seen from the controller. */
  method ApplyWeather(s: PageState, w: WeatherRecord, hour: int, palette: Palette) returns (next: PageState)
    ensures next.forced == s.forced
    ensures next.current == Some(w)
    ensures next.shadow == ShadowAfter(s.shadow, w.condition)
    ensures next.frostOverlays == FrostAfter(s.frostOverlays, w.temperature)
    ensures next.view.Some?
    ensures next.view.value.isDaytime == IsDaytime(s.forced, hour)
    ensures next.view.value.flags == RenderAdditions(w)
  {
    var v := ApplyWeatherAnimations(w, s.forced, hour, palette);
    var shadow := if v.textShadow.Some? then v.textShadow else s.shadow;
    next := PageState(s.forced, Some(w), shadow, FrostAfter(s.frostOverlays, w.temperature), Some(v));
  }

  /**
   * `toggleDayNightMode()`: flips the override (automatic mode counts as
   * night, so the first press gives day) and re-renders the current weather
   * if there is one.
   */
  method ToggleDayNightMode(s: PageState, hour: int, palette: Palette) returns (next: PageState)
    ensures next.forced == Some(s.forced != Some(true))
    ensures next.current == s.current
    ensures s.current.None? ==> next.view == s.view && next.shadow == s.shadow
    ensures s.current.None? ==> next.frostOverlays == s.frostOverlays
    ensures s.current.Some? ==> next.view.Some? && next.view.value.isDaytime == (s.forced != Some(true))
    ensures s.current.Some? ==> next.view.value.flags == RenderAdditions(s.current.value)
    ensures s.current.Some? ==> next.shadow == ShadowAfter(s.shadow, s.current.value.condition)
    ensures s.current.Some? ==> next.frostOverlays == FrostAfter(s.frostOverlays, s.current.value.temperature)
  {
    var forced := ToggleOverride(s.forced);
    next := s.(forced := forced);
    if s.current.Some? {
      next := ApplyWeather(next, s.current.value, hour, palette);
    }
  }

  /** The page starts in automatic mode, so the clock decides and the first press gives day;
      no weather is current and no frost overlay is present. */
  lemma InitialIsAutomatic(hour: int)
    ensures IsDaytime(Initial.forced, hour) <==> 6 <= hour < 18
    ensures ToggleOverride(Initial.forced) == Some(true)
    ensures Initial.current.None? && Initial.frostOverlays == 0
  {
  }

  /** Re-rendering the same weather does not change the shadow, so a toggle after a render keeps it. */
  lemma ShadowAfterIdempotent(previous: Option<TextShadow>, condition: string)
    ensures ShadowAfter(ShadowAfter(previous, condition), condition) == ShadowAfter(previous, condition)
  {
  }

  /**
   * The shadow a Snow render writes survives later renders of clouds, rain,
   * drizzle, fog, mist and haze: only a condition with no overlay resets it.
   */
  lemma SnowShadowPersists(previous: Option<TextShadow>, later: string)
    requires later in {"Clouds", "Rain", "Drizzle", "Fog", "Mist", "Haze"}
    ensures ShadowAfter(ShadowAfter(previous, "Snow"), later) == Some(Strong)
  {
  }

  /**
   * Frost overlays are never cleared: after any run of renders the page has
   * at least as many as before, and more than before when the run contains a
   * reading below 32 degrees.
   */
  lemma {:induction false} FrostNeverCleared(previous: nat, temperatures: seq<int>)
    ensures FrostAfterAll(previous, temperatures) >= previous
    ensures (exists i :: 0 <= i < |temperatures| && temperatures[i] < 32) ==>
              FrostAfterAll(previous, temperatures) > previous
    decreases |temperatures|
  {
    if |temperatures| > 0 {
      var after := FrostAfter(previous, temperatures[0]);
      FrostNeverCleared(after, temperatures[1..]);
      if exists i :: 0 <= i < |temperatures| && temperatures[i] < 32 {
        var i :| 0 <= i < |temperatures| && temperatures[i] < 32;
        if i > 0 {
          assert temperatures[1..][i - 1] < 32;
        }
      }
    }
  }

  /**
   * A render below 32 degrees followed by one at 100 degrees or more leaves a
   * frost overlay on the page beside the heat shimmer the hot render adds.
   */
  lemma FrostOutlivesWarmRender(previous: nat, cold: int, hot: WeatherRecord)
    requires cold < 32
    requires hot.temperature >= 100
    ensures FrostAfter(FrostAfter(previous, cold), hot.temperature) >= 1
    ensures HeatShimmer in RenderAdditions(hot) && Frost !in RenderAdditions(hot)
  {
    RenderAdditionsOverlays(hot);
  }
}

=== FILE: strings.dfy ===
/** The two JavaScript string searches the core relies on, `startsWith` and `includes`,
    each specified against a slice of the searched string. */
module Strings {

  /** `p` appears in `s` starting at index `i`. */
  predicate OccursAt(s: string, p: string, i: nat) {
    i + |p| <= |s| && s[i..i + |p|] == p
  }

  /** `s.startsWith(p)`. */
  function StartsWith(s: string, p: string): (r: bool)
    ensures r <==> OccursAt(s, p, 0)
  {
    if p == [] then true
    else if s == [] then false
    else s[0] == p[0] && StartsWith(s[1..], p[1..])
  }

  /** `s.includes(p)`: `p` occurs in `s` at some offset. */
  function Includes(s: string, p: string): (r: bool)
    ensures r <==> exists i: nat :: OccursAt(s, p, i)
    decreases |s|
  {
    if StartsWith(s, p) then
      true
    else if s == [] then
      assert forall i: nat :: !OccursAt(s, p, i);
      false
    else
      var rest := Includes(s[1..], p);
      assert forall i: nat :: OccursAt(s[1..], p, i) <==> OccursAt(s, p, i + 1);
      assert forall i: nat :: OccursAt(s, p, i) ==> i == 0 || OccursAt(s[1..], p, i - 1);
      rest
  }
}

=== FILE: vibe.dfy ===
/** The vibe classifier: a weather reading becomes a temperature category, a condition
    category and finally a mood word drawn from a fixed table. */
module Vibe {
  import opened Options
  import opened Strings
  import opened Weather

  /** The word table. Keys are either `"<temperature category> & <condition>"` or a
      standalone condition; every list holds three or four words. */
  const VibeWordMap: map<string, seq<string>> := map[
    "Hot & Sunny" := ["scorching", "blistering", "incandescent"],
    "Hot & Humid" := ["sweltering", "dripping", "clammy"],
    "Hot & Windy" := ["baking", "scorched", "blown"],
    "Hot & Overcast" := ["stifling", "smothered", "oppressive"],
    "Hot & Dry" := ["searing", "arid", "wilted"],
    "Warm & Sunny" := ["radiant", "sun-kissed", "glowing"],
    "Warm & Breezy" := ["golden", "buoyant", "airy"],
    "Warm & Cloudy" := ["hazy", "soft-lit", "mellow", "dreamy"],
    "Warm & Rainy" := ["muggy", "steamy", "weighed"],
    "Warm & Humid" := ["sticky", "clinging", "dense"],
    "Mild & Sunny" := ["crisp", "breezy", "temperate"],
    "Mild & Cloudy" := ["muted", "dimmed", "softened"],
    "Mild & Breezy" := ["gentle", "coasting", "billowing"],
    "Mild & Windy" := ["flutter", "tossed", "dancing"],
    "Cool & Rainy" := ["melancholy", "dreary", "drab", "smeared"],
    "Cool & Windy" := ["brisk", "nipping", "gusted"],
    "Cold & Rainy" := ["soggy", "biting", "icy"],
    "Cold & Sunny" := ["frosted", "sun-dappled", "glinting"],
    "Cold & Overcast" := ["bleak", "dim", "hushed"],
    "Cold & Windy" := ["raw", "piercing", "windburned"],
    "Rain + Fog" := ["drowned", "shrouded", "blurred"],
    "Fog & Calm" := ["veiled", "misted", "blank"],
    "Thunderstorm" := ["electric", "crackling", "volatile"],
    "Snowing Lightly" := ["delicate", "powdered", "frosting"],
    "Snowing Heavily" := ["blanketed", "smothered", "buried"],
    "Wind + Snow" := ["whipped", "lashed", "stinging"],
    "Wind Only" := ["swept", "buffeted", "rattled"],
    "Gusty" := ["howling", "roaring", "whistling"],
    "Any + Low Visibility" := ["opaque", "murky", "diffused"],
    "Cloudy All Day" := ["somber", "gloomy", "dull"],
    "Sudden Rain or Cold" := ["jarring", "shocking", "surprising"],
    "Dense Fog" := ["shrouded", "impenetrable", "ghostly"],
    "Wild Mix of Conditions" := ["chaotic", "turbulent", "unpredictable"]
  ]

  /** The word returned when no table entry matches. */
  const DefaultVibe: string := "Ambient"

  datatype TempCategory = Hot | Warm | Mild | Cool | Cold {
    function Name(): string {
      match this
      case Hot => "Hot"
      case Warm => "Warm"
      case Mild => "Mild"
      case Cool => "Cool"
      case Cold => "Cold"
    }

    /** 4 for Hot down to 0 for Cold. */
    function Rank(): nat {
      match this
      case Hot => 4
      case Warm => 3
      case Mild => 2
      case Cool => 1
      case Cold => 0
    }
  }

  /** `getTemperatureCategory`: five bands with lower bounds 85, 65, 45 and 32. */
  function TemperatureCategory(temperature: int): (c: TempCategory)
    ensures c == Hot <==> 85 <= temperature
    ensures c == Warm <==> 65 <= temperature < 85
    ensures c == Mild <==> 45 <= temperature < 65
    ensures c == Cool <==> 32 <= temperature < 45
    ensures c == Cold <==> temperature < 32
  {
    if temperature >= 85 then Hot
    else if temperature >= 65 then Warm
    else if temperature >= 45 then Mild
    else if temperature >= 32 then Cool
    else Cold
  }

  datatype ConditionCategory =
    | Sunny | Cloudy | Rainy | Thunderstorm | SnowingHeavily | SnowingLightly
    | FogAndCalm | LowVisibility | Gusty | WildMix
  {
    function Name(): string {
      match this
      case Sunny => "Sunny"
      case Cloudy => "Cloudy"
      case Rainy => "Rainy"
      case Thunderstorm => "Thunderstorm"
      case SnowingHeavily => "Snowing Heavily"
      case SnowingLightly => "Snowing Lightly"
      case FogAndCalm => "Fog & Calm"
      case LowVisibility => "Any + Low Visibility"
      case Gusty => "Gusty"
      case WildMix => "Wild Mix of Conditions"
    }
  }

  /** The service condition names the table of `mapWeatherCondition` knows. */
  const KnownConditions: set<string> := {
    "Clear", "Clouds", "Rain", "Drizzle", "Thunderstorm", "Snow", "Mist", "Fog", "Haze",
    "Dust", "Sand", "Ash", "Squall", "Tornado", "Smoke"
  }

  /** The condition table of `mapWeatherCondition`; only the Snow entry reads the temperature. */
  function ConditionMap(temperature: int): (m: map<string, ConditionCategory>)
    ensures m.Keys == KnownConditions
  {
    map[
      "Clear" := Sunny,
      "Clouds" := Cloudy,
      "Rain" := Rainy,
      "Drizzle" := Rainy,
      "Thunderstorm" := Thunderstorm,
      "Snow" := if temperature <= 20 then SnowingHeavily else SnowingLightly,
      "Mist" := FogAndCalm,
      "Fog" := FogAndCalm,
      "Haze" := FogAndCalm,
      "Dust" := LowVisibility,
      "Sand" := LowVisibility,
      "Ash" := LowVisibility,
      "Squall" := Gusty,
      "Tornado" := WildMix,
      "Smoke" := LowVisibility
    ]
  }

  /** `mapWeatherCondition`: table lookup, Sunny for any name the table lacks. */
  function MapWeatherCondition(condition: string, temperature: int): (cc: ConditionCategory)
    ensures condition !in KnownConditions ==> cc == Sunny
    ensures cc == Sunny <==> condition == "Clear" || condition !in KnownConditions
    ensures cc == SnowingHeavily <==> condition == "Snow" && temperature <= 20
    ensures cc == SnowingLightly <==> condition == "Snow" && temperature > 20
    ensures cc == FogAndCalm <==> condition in {"Mist", "Fog", "Haze"}
    ensures cc == Rainy <==> condition in {"Rain", "Drizzle"}
  {
    var table := ConditionMap(temperature);
    if condition in table then table[condition] else Sunny
  }

  /** Whether a key has an entry (JavaScript's truthiness test on `vibeWordMap[key]`). */
  predicate HasKey(key: string) {
    key in VibeWordMap
  }

  function WindyKey(tc: TempCategory): string {
    tc.Name() + " & Windy"
  }

  function ExactKey(tc: TempCategory, cc: ConditionCategory): string {
    tc.Name() + " & " + cc.Name()
  }

  function TempPrefix(tc: TempCategory): string {
    tc.Name() + " &"
  }

  /** The keys the partial-match tier chooses among: those starting with `"<category> &"`. */
  function TempMatches(tc: TempCategory): (keys: set<string>)
    ensures forall k :: k in keys <==> k in VibeWordMap && StartsWith(k, TempPrefix(tc))
  {
    set k | k in VibeWordMap && StartsWith(k, TempPrefix(tc))
  }

  /** Which step of the cascade produced the word. */
  datatype Tier =
    | WindyTemperature | WindAndSnow | WindOnly | GustyWind
    | RainAndFog | DenseFog | ExactMatch | ConditionMatch

  /** The outcome of the cascade before any random draw: one key, a set of keys of which a
      random one is taken, or the default word. */
  datatype Selection =
    | Key(tier: Tier, key: string)
    | AnyOf(keys: set<string>)
    | Default

  /** The wind in the record exceeds 10 mph; false when there is no record. */
  predicate IsWindy(data: Option<WeatherRecord>) {
    data.Some? && data.value.windSpeed > 10.0
  }

  /** The record's description contains `word`; false when there is no record. */
  predicate DescriptionIncludes(data: Option<WeatherRecord>, word: string)
    ensures DescriptionIncludes(data, word) <==>
              data.Some? && exists i: nat :: OccursAt(data.value.description, word, i)
  {
    data.Some? && Includes(data.value.description, word)
  }

  /** Step 1: the wind sub-checks, tried only when it is windy. */
  function WindySelection(tc: TempCategory, cc: ConditionCategory, condition: string,
                          data: Option<WeatherRecord>): (s: Option<Selection>)
    ensures s.Some? ==> IsWindy(data) && s.value.Key? && HasKey(s.value.key)
    ensures s.Some? ==> s.value.tier in {WindyTemperature, WindAndSnow, WindOnly, GustyWind}
    ensures s.Some? ==> s.value.key in {WindyKey(tc), "Wind + Snow", "Wind Only", "Gusty"}
  {
    if !IsWindy(data) then None
    else if HasKey(WindyKey(tc)) then Some(Key(WindyTemperature, WindyKey(tc)))
    else if condition == "Snow" && HasKey("Wind + Snow") then Some(Key(WindAndSnow, "Wind + Snow"))
    else if cc == Sunny && HasKey("Wind Only") then Some(Key(WindOnly, "Wind Only"))
    else if data.value.windSpeed > 15.0 && HasKey("Gusty") then Some(Key(GustyWind, "Gusty"))
    else None
  }

  /** Steps 2 and 3: rain with fog or mist in the description, then dense fog. */
  function DescriptionSelection(condition: string, data: Option<WeatherRecord>): (s: Option<Selection>)
    ensures s.Some? ==> data.Some? && s.value.Key? && HasKey(s.value.key)
    ensures s.Some? ==> s.value.tier in {RainAndFog, DenseFog}
    ensures s.Some? ==> s.value.key in {"Rain + Fog", "Dense Fog"}
    ensures s == Some(Key(RainAndFog, "Rain + Fog")) <==>
              condition in {"Rain", "Drizzle"}
              && (DescriptionIncludes(data, "fog") || DescriptionIncludes(data, "mist"))
    ensures s == Some(Key(DenseFog, "Dense Fog")) <==>
              condition in {"Fog", "Mist", "Haze"} && DescriptionIncludes(data, "dense")
  {
    if (condition == "Rain" || condition == "Drizzle")
       && (DescriptionIncludes(data, "fog") || DescriptionIncludes(data, "mist"))
       && HasKey("Rain + Fog")
    then Some(Key(RainAndFog, "Rain + Fog"))
    else if (condition == "Fog" || condition == "Mist" || condition == "Haze")
       && DescriptionIncludes(data, "dense")
       && HasKey("Dense Fog")
    then Some(Key(DenseFog, "Dense Fog"))
    else None
  }

  /** Steps 4 to 7: the exact key, the bare condition key, any key of the temperature
      category, and finally the default word. */
  function TableSelection(tc: TempCategory, cc: ConditionCategory): (s: Selection)
    ensures s.Key? ==> HasKey(s.key) && s.tier in {ExactMatch, ConditionMatch}
    ensures s.Key? ==> s.key in {ExactKey(tc, cc), cc.Name()}
    ensures s.AnyOf? ==> s.keys != {} && s.keys == TempMatches(tc)
  {
    if HasKey(ExactKey(tc, cc)) then Key(ExactMatch, ExactKey(tc, cc))
    else if HasKey(cc.Name()) then Key(ConditionMatch, cc.Name())
    else if TempMatches(tc) != {} then AnyOf(TempMatches(tc))
    else Default
  }

  /** The whole precedence cascade of `getVibeWord`, up to its random draws. */
  function SelectVibe(temperature: int, condition: string, data: Option<WeatherRecord>): (s: Selection)
    ensures WellFormed(s)
  {
    var tc := TemperatureCategory(temperature);
    var cc := MapWeatherCondition(condition, temperature);
    var windy := WindySelection(tc, cc, condition, data);
    if windy.Some? then windy.value
    else
      var described := DescriptionSelection(condition, data);
      if described.Some? then described.value
      else TableSelection(tc, cc)
  }

  /** Every temperature category has at least one key of the form `"<category> & ..."`. */
  lemma TempMatchesNonEmpty(tc: TempCategory)
    ensures TempMatches(tc) != {}
  {
    var key := match tc
      case Hot => "Hot & Sunny"
      case Warm => "Warm & Sunny"
      case Mild => "Mild & Sunny"
      case Cool => "Cool & Rainy"
      case Cold => "Cold & Rainy";
    assert key in VibeWordMap;
    assert OccursAt(key, TempPrefix(tc), 0);
    assert key in TempMatches(tc);
  }

  /** The cascade always finds a table entry, so the default word is never produced. */
  lemma SelectVibeNeverDefault(temperature: int, condition: string, data: Option<WeatherRecord>)
    ensures !SelectVibe(temperature, condition, data).Default?
  {
    TempMatchesNonEmpty(TemperatureCategory(temperature));
  }

  /** Every word `getVibeWord` can return for a selection. */
  function Candidates(s: Selection): (words: set<string>)
  {
    match s
    case Key(_, k) => if k in VibeWordMap then set w | w in VibeWordMap[k] else {}
    case AnyOf(keys) => set k, w | k in keys && k in VibeWordMap && w in VibeWordMap[k] :: w
    case Default => {DefaultVibe}
  }

  lemma ListsNonEmpty(k: string)
    requires k in VibeWordMap
    ensures |VibeWordMap[k]| >= 3
  {
  }

  /** The keys a selection refers to are all in the table, and a set of keys is never empty. */
  predicate WellFormed(s: Selection) {
    match s
    case Key(_, k) => HasKey(k)
    case AnyOf(keys) => keys != {} && forall k | k in keys :: HasKey(k)
    case Default => true
  }

  /** The random draws of `getVibeWord`, each `Math.random()` modelled as an arbitrary choice:
      first of a key (partial-match tier only), then of an index into that key's list. */
  method Draw(selection: Selection) returns (word: string)
    requires WellFormed(selection)
    ensures word in Candidates(selection)
    ensures selection.Default? || exists k :: k in VibeWordMap && word in VibeWordMap[k]
  {
    match selection {
      case Key(_, key) =>
        ListsNonEmpty(key);
        var options := VibeWordMap[key];
        var i :| 0 <= i < |options|;
        word := options[i];
      case AnyOf(keys) =>
        var key :| key in keys;
        ListsNonEmpty(key);
        var options := VibeWordMap[key];
        var i :| 0 <= i < |options|;
        word := options[i];
        assert key in keys && key in VibeWordMap && word in VibeWordMap[key];
      case Default =>
        word := DefaultVibe;
    }
  }

  /** `getVibeWord`: the cascade, then the random draws. */
  method GetVibeWord(temperature: int, condition: string, data: Option<WeatherRecord>)
    returns (word: string)
    ensures word in Candidates(SelectVibe(temperature, condition, data))
    ensures exists k :: k in VibeWordMap && word in VibeWordMap[k]
  {
    var selection := SelectVibe(temperature, condition, data);
    SelectVibeNeverDefault(temperature, condition, data);
    word := Draw(selection);
  }
}

=== FILE: vibe_properties.dfy ===
/** Properties of the vibe classifier's cascade: which tier answers for which readings. */
module VibeProperties {
  import opened Options
  import opened Strings
  import opened Weather
  import opened Vibe
  import Presentation

  /** Warmer readings never fall into a colder category. */
  lemma TemperatureCategoryMonotone(t1: int, t2: int)
    requires t1 <= t2
    ensures TemperatureCategory(t1).Rank() <= TemperatureCategory(t2).Rank()
  {
  }

  /** The boundary readings land on the side the `>=` tests of `getTemperatureCategory` put them. */
  lemma TemperatureCategoryBoundaries()
    ensures TemperatureCategory(85) == Hot && TemperatureCategory(84) == Warm
    ensures TemperatureCategory(65) == Warm && TemperatureCategory(64) == Mild
    ensures TemperatureCategory(45) == Mild && TemperatureCategory(44) == Cool
    ensures TemperatureCategory(32) == Cool && TemperatureCategory(31) == Cold
  {
  }

  /** Only the Snow entry of the condition table depends on the temperature. */
  lemma OnlySnowReadsTemperature(condition: string, t1: int, t2: int)
    requires condition != "Snow"
    ensures MapWeatherCondition(condition, t1) == MapWeatherCondition(condition, t2)
  {
  }

  /** Every category except Warm has a `"<category> & Windy"` entry. */
  lemma WindyKeyPresence(tc: TempCategory)
    ensures HasKey(WindyKey(tc)) <==> tc != Warm
  {
    match tc
    case Hot => assert WindyKey(tc) == "Hot & Windy";
    case Warm => assert WindyKey(tc) == "Warm & Windy";
    case Mild => assert WindyKey(tc) == "Mild & Windy";
    case Cool => assert WindyKey(tc) == "Cool & Windy";
    case Cold => assert WindyKey(tc) == "Cold & Windy";
  }

  /** With wind over 10 mph and a category that has a `"<category> & Windy"` entry (all but
      Warm), that entry answers, ahead of the snow, calm-sky and gusty sub-checks. */
  lemma WindyTemperatureKeyFirst(temperature: int, condition: string, data: Option<WeatherRecord>)
    requires IsWindy(data)
    requires TemperatureCategory(temperature) != Warm
    ensures SelectVibe(temperature, condition, data)
            == Key(WindyTemperature, WindyKey(TemperatureCategory(temperature)))
  {
    WindyKeyPresence(TemperatureCategory(temperature));
  }

  /** The same reading with the wind dropped to nothing. */
  function Calm(data: Option<WeatherRecord>): (calm: Option<WeatherRecord>)
    ensures !IsWindy(calm)
  {
    match data
    case None => None
    case Some(w) => Some(w.(windSpeed := 0.0))
  }

  /** The vibe's windy test and the page's `wind-high` mark share one threshold: a record
      counts as windy exactly when `applyWeatherAnimations` would mark it wind-high. */
  lemma WindyMatchesWindHigh(data: Option<WeatherRecord>)
    ensures IsWindy(data) <==>
              data.Some? && Presentation.WindFlag(data.value.windSpeed) == Some(Presentation.WindHigh)
  {
  }

  /** Warm has no windy entry, so a windy Warm reading tries Wind + Snow, then Wind Only,
      then Gusty, and otherwise is treated exactly as if there were no wind. */
  lemma WarmWindyFallThrough(temperature: int, condition: string, data: Option<WeatherRecord>)
    requires IsWindy(data)
    requires TemperatureCategory(temperature) == Warm
    ensures SelectVibe(temperature, condition, data) ==
            if condition == "Snow" then Key(WindAndSnow, "Wind + Snow")
            else if MapWeatherCondition(condition, temperature) == Sunny then Key(WindOnly, "Wind Only")
            else if data.value.windSpeed > 15.0 then Key(GustyWind, "Gusty")
            else SelectVibe(temperature, condition, Calm(data))
  {
    WindyKeyPresence(Warm);
    assert DescriptionIncludes(Calm(data), "fog") == DescriptionIncludes(data, "fog");
    assert DescriptionIncludes(Calm(data), "mist") == DescriptionIncludes(data, "mist");
    assert DescriptionIncludes(Calm(data), "dense") == DescriptionIncludes(data, "dense");
  }

  /** The wind step did not answer. */
  predicate WindStepPasses(temperature: int, condition: string, data: Option<WeatherRecord>) {
    WindySelection(TemperatureCategory(temperature), MapWeatherCondition(condition, temperature),
                   condition, data).None?
  }

  /** Rain or drizzle described as foggy or misty answers with Rain + Fog once the wind step
      has passed. */
  lemma RainWithFog(temperature: int, condition: string, data: Option<WeatherRecord>)
    requires WindStepPasses(temperature, condition, data)
    requires condition == "Rain" || condition == "Drizzle"
    requires DescriptionIncludes(data, "fog") || DescriptionIncludes(data, "mist")
    ensures SelectVibe(temperature, condition, data) == Key(RainAndFog, "Rain + Fog")
  {
  }

  /** Fog, mist or haze described as dense answers with Dense Fog once the wind step has
      passed. */
  lemma DenseFogTier(temperature: int, condition: string, data: Option<WeatherRecord>)
    requires WindStepPasses(temperature, condition, data)
    requires condition in {"Fog", "Mist", "Haze"}
    requires DescriptionIncludes(data, "dense")
    ensures SelectVibe(temperature, condition, data) == Key(DenseFog, "Dense Fog")
  {
  }

  /** When the wind step answers, its answer is final. */
  lemma WindStepAnswersFirst(temperature: int, condition: string, data: Option<WeatherRecord>)
    requires !WindStepPasses(temperature, condition, data)
    ensures SelectVibe(temperature, condition, data)
            == WindySelection(TemperatureCategory(temperature), MapWeatherCondition(condition, temperature),
                              condition, data).value
  {
  }

  /** Once the wind step has passed and the description calls for neither Rain + Fog nor Dense
      Fog, the answer comes from the table tiers, whether or not there is a record. */
  lemma TableTiersReached(temperature: int, condition: string, data: Option<WeatherRecord>)
    requires WindStepPasses(temperature, condition, data)
    requires !(condition in {"Rain", "Drizzle"}
               && (DescriptionIncludes(data, "fog") || DescriptionIncludes(data, "mist")))
    requires !(condition in {"Fog", "Mist", "Haze"} && DescriptionIncludes(data, "dense"))
    ensures SelectVibe(temperature, condition, data)
            == TableSelection(TemperatureCategory(temperature), MapWeatherCondition(condition, temperature))
  {
    var described := DescriptionSelection(condition, data);
    assert described.None?;
  }

  /** Neither the wind step nor the description step answers without a record: the answer
      comes from the table alone. */
  lemma NoRecordUsesTableOnly(temperature: int, condition: string)
    ensures SelectVibe(temperature, condition, None)
            == TableSelection(TemperatureCategory(temperature), MapWeatherCondition(condition, temperature))
  {
  }

  /** Past the wind and description steps, the exact `"<category> & <condition>"` key is
      preferred to the bare condition key, which is preferred to a random key of the category. */
  lemma TableTierOrder(tc: TempCategory, cc: ConditionCategory)
    ensures HasKey(ExactKey(tc, cc)) ==> TableSelection(tc, cc) == Key(ExactMatch, ExactKey(tc, cc))
    ensures !HasKey(ExactKey(tc, cc)) && HasKey(cc.Name()) ==>
              TableSelection(tc, cc) == Key(ConditionMatch, cc.Name())
    ensures !HasKey(ExactKey(tc, cc)) && !HasKey(cc.Name()) ==>
              TableSelection(tc, cc) == AnyOf(TempMatches(tc))
  {
    TempMatchesNonEmpty(tc);
  }

  lemma NoThunderstormExactKey(tc: TempCategory)
    ensures !HasKey(ExactKey(tc, Thunderstorm))
  {
    match tc
    case Hot => assert ExactKey(tc, Thunderstorm) == "Hot & Thunderstorm";
    case Warm => assert ExactKey(tc, Thunderstorm) == "Warm & Thunderstorm";
    case Mild => assert ExactKey(tc, Thunderstorm) == "Mild & Thunderstorm";
    case Cool => assert ExactKey(tc, Thunderstorm) == "Cool & Thunderstorm";
    case Cold => assert ExactKey(tc, Thunderstorm) == "Cold & Thunderstorm";
  }

  /** No entry is keyed `"<category> & Thunderstorm"`, so a thunderstorm that gets past the
      wind step always answers from the bare Thunderstorm entry. */
  lemma ThunderstormUsesBareKey(temperature: int, data: Option<WeatherRecord>)
    requires WindStepPasses(temperature, "Thunderstorm", data)
    ensures SelectVibe(temperature, "Thunderstorm", data) == Key(ConditionMatch, "Thunderstorm")
  {
    var tc := TemperatureCategory(temperature);
    var cc := MapWeatherCondition("Thunderstorm", temperature);
    assert cc == Thunderstorm;
    assert DescriptionSelection("Thunderstorm", data).None?;
    NoThunderstormExactKey(tc);
    assert TableSelection(tc, cc) == Key(ConditionMatch, "Thunderstorm");
  }

  /** 90°F and clear with a light wind: a Hot & Sunny word. */
  lemma HotClearScenario()
    ensures SelectVibe(90, "Clear", Some(WeatherRecord(90, "Clear", 30, 3.0, "clear sky")))
            == Key(ExactMatch, "Hot & Sunny")
  {
    assert ExactKey(Hot, Sunny) == "Hot & Sunny";
  }

  /** 10°F snow in a 20 mph wind: Cold & Windy wins before Wind + Snow is looked at. */
  lemma ColdWindySnowScenario()
    ensures SelectVibe(10, "Snow", Some(WeatherRecord(10, "Snow", 50, 20.0, "snow")))
            == Key(WindyTemperature, "Cold & Windy")
  {
    WindyTemperatureKeyFirst(10, "Snow", Some(WeatherRecord(10, "Snow", 50, 20.0, "snow")));
    assert WindyKey(Cold) == "Cold & Windy";
  }

  /** 72°F dense fog: the Dense Fog entry. */
  lemma DenseFogScenario()
    ensures SelectVibe(72, "Fog", Some(WeatherRecord(72, "Fog", 85, 0.0, "dense fog")))
            == Key(DenseFog, "Dense Fog")
  {
    assert OccursAt("dense fog", "dense", 0);
  }

  /** A key of the form `"<category> &..."` has `&` right after the category's name. */
  lemma PrefixAmpersand(tc: TempCategory, k: string)
    requires StartsWith(k, TempPrefix(tc))
    ensures |tc.Name()| + 1 < |k| && k[|tc.Name()| + 1] == '&'
  {
    assert OccursAt(k, TempPrefix(tc), 0);
    assert k[..|TempPrefix(tc)|][|tc.Name()| + 1] == '&';
  }

  /** Neither unreachable entry is the "Cloudy All Day" or "Sudden Rain or Cold" key. */
  predicate NotDead(k: string) {
    k != "Cloudy All Day" && k != "Sudden Rain or Cold"
  }

  /** Keys built from a temperature category are never one of the two unreachable entries. */
  lemma CategoryKeysNotDead(tc: TempCategory, cc: ConditionCategory)
    ensures NotDead(WindyKey(tc)) && NotDead(ExactKey(tc, cc))
  {
    var n := |tc.Name()|;
    assert n == 3 || n == 4;
    assert WindyKey(tc)[n + 1] == '&';
    assert ExactKey(tc, cc)[n + 1] == '&';
  }

  /** Neither unreachable entry starts with `"<category> &"`. */
  lemma DeadEntriesLackPrefix(tc: TempCategory)
    ensures !StartsWith("Cloudy All Day", TempPrefix(tc))
    ensures !StartsWith("Sudden Rain or Cold", TempPrefix(tc))
  {
    var n := |tc.Name()|;
    assert n == 3 || n == 4;
    if StartsWith("Cloudy All Day", TempPrefix(tc)) {
      PrefixAmpersand(tc, "Cloudy All Day");
    }
    if StartsWith("Sudden Rain or Cold", TempPrefix(tc)) {
      PrefixAmpersand(tc, "Sudden Rain or Cold");
    }
  }

  /** The entries "Cloudy All Day" and "Sudden Rain or Cold" can never be selected: no
      condition maps to those names, and neither has the `"<category> &"` shape of the keys
      built from a temperature category. */
  lemma DeadEntries(temperature: int, condition: string, data: Option<WeatherRecord>)
    ensures var s := SelectVibe(temperature, condition, data);
            (s.Key? ==> NotDead(s.key))
            && (s.AnyOf? ==> "Cloudy All Day" !in s.keys && "Sudden Rain or Cold" !in s.keys)
  {
    var tc := TemperatureCategory(temperature);
    var cc := MapWeatherCondition(condition, temperature);
    CategoryKeysNotDead(tc, cc);
    DeadEntriesLackPrefix(tc);
    assert NotDead(cc.Name());
    var windy := WindySelection(tc, cc, condition, data);
    var described := DescriptionSelection(condition, data);
    var table := TableSelection(tc, cc);
    assert windy.Some? ==> NotDead(windy.value.key);
    assert described.Some? ==> NotDead(described.value.key);
    assert table.Key? ==> NotDead(table.key);
  }
}

=== FILE: weather.dfy ===
/** The weather record every rendering cycle starts from. */
module Weather {

  /** One observation, as built from the weather service's reply or by the mock generator.
      `condition` is the service's main condition name ("Clear", "Rain", ...); the
      description is its free-text detail ("light rain", "dense fog", ...). */
  datatype WeatherRecord = WeatherRecord(
    temperature: int,     // degrees Fahrenheit, rounded
    condition: string,
    humidity: int,        // percent
    windSpeed: real,      // miles per hour
    description: string)
}
